=== FILE: README.md ===
# account_invoice_subvention, modelled in Dafny

The Tryton module `account_invoice_subvention` lets a customer invoice carry
*subventions*: lines that say some other party pays part of the invoice. Each
subvention line (`account.invoice.subvention`) names a product of type
`subvention`, a quantity, a unit price and a currency. Its amount is quantity
times unit price, rounded by the currency. The invoice gains two derived
amounts:

- `subvention_amount`, the sum of its subvention lines' amounts;
- `customer_amount`, the invoice total minus that sum.

There are two ways to compute them. The batch getter `get_subventions` is
used when saved invoices are read. Two change handlers recompute them live
while the invoice is edited: `on_change_subventions` and `on_change_lines`. Two setup
hooks register the new product type, and keep subvention products off
ordinary invoice lines.

The model is split into these modules:

- `Decimals` (`decimals.dfy`) models Python's `Decimal` as far as the module
  uses it.
  - Exact products and sums, and numeric equality.
  - The currency's half-even rounding, given by a relational specification
    (`RoundsTo`). `RoundsToUnique` proves there is exactly one result.
- `Outcomes` (`outcomes.dfy`) models an empty field as `Option`. The two
  Python exceptions the code can raise, `TypeError` and `KeyError`, are
  modelled as the `Raises` case of `Outcome`.
- `Subventions` (`subventions.dfy`) covers the subvention line:
  - its defaults;
  - its digit lookups;
  - its amount;
  - the changes suggested when a product is chosen.
- `Invoices` (`invoices.dfy`) covers:
  - the batch getter, written as a loop over the batch. Its result is proved
    equal, entry by entry, to an independent per-invoice specification
    (`Entry`, `InvoiceError`, `ErrorFrom`);
  - the two live handlers;
  - the invoice line setup hook.
- `Registration` (`registration.dfy`) holds the append-if-absent step that
  both setup hooks perform on a list shared by every record.
- `Templates` (`templates.dfy`) holds the product template setup hook.

Three behaviours of the code a reader may not expect:

- **No subventions.** An invoice without subventions gets
  `customer_amount` 0 from both `get_subventions` and `on_change_subventions`,
  not the invoice total.
- **`on_change_lines`.** It does not reset the two fields before calling the
  base handler. With no subventions it returns the base handler's changes
  unchanged.
- **Missing amounts and totals.** Only an invoice with subventions can make
  a handler raise; a missing amount never counts as zero in the plain sums.
  Once totals are known, `get_subventions` stops at the first invoice with
  subventions that raises. It raises `TypeError` if one of that invoice's
  lines has no amount. Otherwise it raises `KeyError` if the invoice's total
  is missing, or if the request names only one of `subvention_amount` and
  `customer_amount`. With no `total_amount` column at all it reports zeros.
  With subventions, `on_change_lines` raises `TypeError` for a line without
  an amount and `KeyError` for a missing `total_amount` key, and
  `on_change_subventions` raises `TypeError` for a missing total.

## Model

| member | source | states |
|---|---|---|
| Decimals.Quantize | invoice.py:186-187 | the currency's rounding of a value gives a result with exactly the currency's digits, within half a unit of its last digit and even on a tie |
| Decimals.RoundsToUnique | invoice.py:186-187 | half-even rounding has a single admissible result |
| Subventions.DefaultUnitDigits | invoice.py:132-134 | a new line's unit digits default to 2 |
| Subventions.UnitDigits | invoice.py:171-175 | unit digits are the unit's digits, or the default 2 when there is no unit |
| Subventions.CurrencyDigits | invoice.py:177-181 | currency digits are the currency's digits, or 2 when there is no currency |
| Subventions.DefaultCurrency | invoice.py:144-149 | the default currency is the active company's currency; with no company there is none |
| Subventions.DefaultCurrencyDigits | invoice.py:136-142 | the default currency digits are exactly what the digit lookup gives for the default currency |
| Subventions.Amount | invoice.py:183-187 | a line has an amount exactly when currency, quantity and unit price are all set and non-zero; the amount carries the currency's digits |
| Subventions.AmountIsRoundedProduct | invoice.py:185-187 | the amount is the half-even rounding of quantity x unit price to the currency's digits, and no other value is |
| Subventions.AmountDependsOnlyOnFactors | invoice.py:183-187 | lines agreeing on quantity, unit price and currency have the same amount, whatever their product, unit or description |
| Subventions.OnChangeProduct | invoice.py:151-169 | with a product chosen: its default unit and list price are always suggested, and its name as description exactly when the line has none; no suggestion without a product; an existing description is kept, and the applied unit's digits are the product unit's |
| Invoices.Coerced | invoice.py:62-63 | a missing amount counts as zero, a present one keeps its value |
| Invoices.SumUnchecked | invoice.py:48-49 | the plain sum of line amounts succeeds exactly when every line has an amount, and raises TypeError otherwise |
| Invoices.SumsAgree | invoice.py:48-49 | when every line has an amount, the plain sum equals, as a number, the coerced sum of the live handler |
| Invoices.SumCoerced | invoice.py:62-63 | the left fold from int 0 of the coerced amounts; when no line has an amount it is zero |
| Invoices.InvoiceError | invoice.py:47-52 | an invoice without subventions raises nothing; TypeError exactly when a line has no amount, so the plain sum fails; otherwise KeyError when a field name or the invoice's total is missing, else nothing |
| Invoices.LineWithoutAmountAddsNothing | invoice.py:62-63 | in the coerced sum, a line without an amount does not change the total |
| Invoices.ErrorFromIsFirst | invoice.py:46-52 | the getter's error is that of the first invoice in the batch that raises, and there is none exactly when no invoice raises |
| Invoices.Entry | invoice.py:42-52 | with no totals, or for an invoice without subventions, or for a field other than the two amounts, the reported value is Decimal('0.0') |
| Invoices.Initial | invoice.py:42 | the starting table has one entry per requested field and per invoice of the batch, each zero |
| Invoices.Written | invoice.py:47-52 | handling one invoice leaves the table's keys alone; it sets that invoice's two amount entries to the reported values and changes no other entry |
| Invoices.PartialEntries | invoice.py:45-52 | after the first i invoices, every entry of an invoice already met, and every entry that stays zero, holds its reported value |
| Invoices.Visit | invoice.py:47-52 | handling one invoice raises exactly the error that invoice causes, and otherwise produces the written table |
| Invoices.GetSubventions | invoice.py:40-53 | the getter raises exactly when totals are known and some invoice raises, with the first invoice's error; otherwise it returns one entry per requested field and invoice, each equal to the reported value |
| Invoices.GetSubventionsConservation | invoice.py:48-52 | in the batch result, customer_amount + subvention_amount equals the invoice total exactly |
| Invoices.GetSubventionsAgreesWithLive | invoice.py:48-49 | the stored subvention_amount equals, as a number, the live handler's sum for the same lines |
| Invoices.OnChangeSubventions | invoice.py:55-66 | both amounts are zero without subventions; otherwise they are the coerced sum and the total minus it, and they add back to the total; TypeError exactly when there are subventions but no total |
| Invoices.OnChangeLines | invoice.py:68-76 | the base changes pass through untouched without subventions; otherwise the plain sum and the recomputed total minus it are added, and they add back to the total; TypeError for a line without an amount, KeyError for a missing total; every other key keeps the base value |
| Invoices.InvoiceLine.Setup | invoice.py:82-87 | the product domain gains the exclusion of subvention products exactly once: an existing domain keeps its clauses in order, and is unchanged if the exclusion was already there |
| Templates.Template.Setup | product.py:14-19 | the product type selection gains the subvention option exactly once: existing options are kept in order, and the selection is unchanged if the option was already there |
| Registration.AppendIfAbsent | invoice.py:86-87 | the guarded append ends with the entry present. It keeps the old list as a prefix. It adds at most one element, and adds nothing if the entry was present. The entry occurs once if it was absent |
| Registration.AppendIfAbsentIdempotent | product.py:18-19 | running a setup hook twice is the same as running it once |

## Left out

- The ORM, the pool, transactions and the record cache. The batch is given
  as a sequence of invoice ids and a map from id to the fields read. Invoices
  sharing an id are therefore the same record.
- The nested dictionary `result[name][id]` is modelled as one map keyed by
  the pair (name, id).
- Invoice.get_amount is not part of this model. Its `total_amount` column is
  an input: a map from invoice id to total, or None when the column is
  absent.
- The base on_change_lines is not part of this model. Its changes are an
  input, with every value modelled as a decimal, since the module only reads
  `total_amount` from them and passes the rest through.
- The base classes' `__setup__` are not part of this model. The lists they
  leave are the constructors' arguments.
- The active company is not modelled. It is an input, the company's currency
  or None.
- Localisation of the product name is not modelled. The product's display
  name in the party's language is given as a field.
- The unit that on_change_product suggests is modelled as the unit record,
  not its id.
- The quantity is a float in the source and is converted to `Decimal`
  through its string form. The model takes the converted decimal as given.
- Decimal context effects are not modelled: the 28-digit precision limit
  and signals.
- Currency rounding factors that are not a power of ten are not modelled.
  The model rounds to `digits` fractional places.
- search_total_amount, the searcher of both function fields, is not
  modelled. It belongs to the base invoice module.
- Field declarations, states, depends and domains are not modelled. They
  describe the client form, not a computation. Evaluating the product-type
  domain clause is not modelled either.

=== FILE: decimals.dfy ===
/** Exact decimal arithmetic in the manner of Python's `decimal.Decimal`,
    as far as the subvention amounts use it: a value is a coefficient
    scaled by a power of ten, multiplication adds the exponents, addition
    and subtraction align both operands to the finer exponent, and equality
    is numeric. Currency rounding is half-even quantisation to a number of
    fractional digits. */
module Decimals {

  /** coef * 10^-exp, e.g. Dec(12000, 2) is Decimal('120.00'). */
  datatype Dec = Dec(coef: int, exp: nat)

  function Max(a: nat, b: nat): nat
  {
    if a >= b then a else b
  }

  function Abs(x: int): nat
  {
    if x < 0 then -x else x
  }

  function Pow10(n: nat): (p: nat)
    ensures p >= 1
  {
    if n == 0 then 1 else 10 * Pow10(n - 1)
  }

  /** The value of d counted in units of 10^-e, for any e at least as fine as d's own exponent. */
  function Scaled(d: Dec, e: nat): int
    requires e >= d.exp
  {
    d.coef * Pow10(e - d.exp)
  }

  /** Python's `a == b` on decimals: numeric equality, whatever the exponents. */
  predicate SameValue(a: Dec, b: Dec)
  {
    Scaled(a, Max(a.exp, b.exp)) == Scaled(b, Max(a.exp, b.exp))
  }

  /** Python's truth value of a decimal: false exactly for zero. */
  predicate Truthy(d: Dec)
  {
    d.coef != 0
  }

  function Mul(a: Dec, b: Dec): Dec
  {
    Dec(a.coef * b.coef, a.exp + b.exp)
  }

  function Add(a: Dec, b: Dec): Dec
  {
    var e := Max(a.exp, b.exp);
    Dec(Scaled(a, e) + Scaled(b, e), e)
  }

  function Sub(a: Dec, b: Dec): Dec
  {
    var e := Max(a.exp, b.exp);
    Dec(Scaled(a, e) - Scaled(b, e), e)
  }

  /** r is d rounded half-even to `digits` fractional digits: r has exactly that
      exponent, lies within half a unit of its last digit from d, and on a tie
      its last digit is even. */
  predicate RoundsTo(d: Dec, digits: nat, r: Dec)
  {
    var e := Max(d.exp, digits);
    var unit := Pow10(e - digits);
    r.exp == digits
    && 2 * Abs(Scaled(r, e) - Scaled(d, e)) <= unit
    && (2 * Abs(Scaled(r, e) - Scaled(d, e)) == unit ==> r.coef % 2 == 0)
  }

  /** `Decimal.quantize` to `digits` places with ROUND_HALF_EVEN. */
  function Quantize(d: Dec, digits: nat): (r: Dec)
    ensures RoundsTo(d, digits, r)
  {
    if d.exp <= digits then
      Dec(d.coef * Pow10(digits - d.exp), digits)
    else
      var p := Pow10(d.exp - digits);
      var q := d.coef / p;
      var rem := d.coef % p;
      var up := 2 * rem > p || (2 * rem == p && q % 2 == 1);
      var c := if up then q + 1 else q;
      DivModBounds(d.coef, p);
      assert 2 * Abs(c * p - d.coef) <= p && (2 * Abs(c * p - d.coef) == p ==> c % 2 == 0);
      RoundsToCoarser(d, digits, c);
      Dec(c, digits)
  }

  /** Rounding to fewer digits than d has is judged in units of d's own last digit. */
  lemma RoundsToCoarser(d: Dec, digits: nat, c: int)
    requires d.exp > digits
    requires 2 * Abs(c * Pow10(d.exp - digits) - d.coef) <= Pow10(d.exp - digits)
    requires 2 * Abs(c * Pow10(d.exp - digits) - d.coef) == Pow10(d.exp - digits) ==> c % 2 == 0
    ensures RoundsTo(d, digits, Dec(c, digits))
  {
    assert Scaled(d, d.exp) == d.coef;
  }

  /** Euclidean division by a positive divisor, spelled out for the solver. */
  lemma DivModBounds(x: int, p: nat)
    requires p >= 1
    ensures x == (x / p) * p + x % p && 0 <= x % p < p
    ensures (x / p + 1) * p - x == p - x % p
    ensures (x / p) * p - x == - (x % p)
  {
  }

  lemma {:induction false} Pow10Add(a: nat, b: nat)
    ensures Pow10(a + b) == Pow10(a) * Pow10(b)
  {
    if b > 0 {
      Pow10Add(a, b - 1);
      calc {
        Pow10(a + b);
        10 * Pow10(a + b - 1);
        10 * (Pow10(a) * Pow10(b - 1));
        Pow10(a) * (10 * Pow10(b - 1));
        Pow10(a) * Pow10(b);
      }
    }
  }

  /** Re-expressing a scaled value at a finer exponent multiplies it by the extra power of ten. */
  lemma ScaledLift(d: Dec, e1: nat, e2: nat)
    requires d.exp <= e1 <= e2
    ensures Scaled(d, e2) == Scaled(d, e1) * Pow10(e2 - e1)
  {
    Pow10Add(e1 - d.exp, e2 - e1);
    assert e2 - d.exp == (e1 - d.exp) + (e2 - e1);
    calc {
      Scaled(d, e2);
      d.coef * Pow10(e2 - d.exp);
      d.coef * (Pow10(e1 - d.exp) * Pow10(e2 - e1));
      (d.coef * Pow10(e1 - d.exp)) * Pow10(e2 - e1);
    }
  }

  /** A product of naturals with a factor at least k is at least k times the other factor. */
  lemma {:induction false} MulAtLeast(k: nat, n: nat, p: nat)
    requires n >= k
    ensures n * p >= k * p
  {
    if n > k {
      MulAtLeast(k, n - 1, p);
      assert n * p == (n - 1) * p + p;
    }
  }

  lemma MulCancel(x: int, y: int, p: nat)
    requires p >= 1
    ensures x * p == y * p <==> x == y
  {
    if x < y {
      MulAtLeast(1, y - x, p);
      assert y * p - x * p == (y - x) * p;
    } else if y < x {
      MulAtLeast(1, x - y, p);
      assert x * p - y * p == (x - y) * p;
    }
  }

  /** Numeric equality may be checked at any common exponent. */
  lemma SameValueAt(a: Dec, b: Dec, e: nat)
    requires e >= Max(a.exp, b.exp)
    ensures SameValue(a, b) <==> Scaled(a, e) == Scaled(b, e)
  {
    var m := Max(a.exp, b.exp);
    ScaledLift(a, m, e);
    ScaledLift(b, m, e);
    MulCancel(Scaled(a, m), Scaled(b, m), Pow10(e - m));
  }

  /** Decimal addition is exact: at any common exponent the scaled sum is the sum of the scaled operands. */
  lemma AddValue(a: Dec, b: Dec, e: nat)
    requires e >= Max(a.exp, b.exp)
    ensures Add(a, b).exp == Max(a.exp, b.exp)
    ensures Scaled(Add(a, b), e) == Scaled(a, e) + Scaled(b, e)
  {
    var m := Max(a.exp, b.exp);
    ScaledLift(a, m, e);
    ScaledLift(b, m, e);
    ScaledLift(Add(a, b), m, e);
    var p := Pow10(e - m);
    assert (Scaled(a, m) + Scaled(b, m)) * p == Scaled(a, m) * p + Scaled(b, m) * p;
  }

  /** Decimal subtraction is exact, in the same sense as AddValue. */
  lemma SubValue(a: Dec, b: Dec, e: nat)
    requires e >= Max(a.exp, b.exp)
    ensures Sub(a, b).exp == Max(a.exp, b.exp)
    ensures Scaled(Sub(a, b), e) == Scaled(a, e) - Scaled(b, e)
  {
    var m := Max(a.exp, b.exp);
    ScaledLift(a, m, e);
    ScaledLift(b, m, e);
    ScaledLift(Sub(a, b), m, e);
    var p := Pow10(e - m);
    assert (Scaled(a, m) - Scaled(b, m)) * p == Scaled(a, m) * p - Scaled(b, m) * p;
  }

  /** Adding numerically equal operands gives numerically equal sums. */
  lemma AddRespectsValue(a: Dec, a': Dec, b: Dec, b': Dec)
    requires SameValue(a, a') && SameValue(b, b')
    ensures SameValue(Add(a, b), Add(a', b'))
  {
    var e := Max(Max(a.exp, a'.exp), Max(b.exp, b'.exp));
    SameValueAt(a, a', e);
    SameValueAt(b, b', e);
    AddValue(a, b, e);
    AddValue(a', b', e);
    SameValueAt(Add(a, b), Add(a', b'), e);
  }

  /** (total - part) + part == total holds exactly: no rounding happens in between. */
  lemma SubThenAdd(total: Dec, part: Dec)
    ensures SameValue(Add(Sub(total, part), part), total)
  {
    var e := Max(total.exp, part.exp);
    SubValue(total, part, e);
    AddValue(Sub(total, part), part, e);
    SameValueAt(Add(Sub(total, part), part), total, e);
  }

  /** Two offsets from the same point, each within half a unit and even on a tie,
      whose multiples are apart by `gap`: if the multiples differ, the gap is at
      least a unit, which forces a tie on both sides and two even neighbours. */
  lemma NeighboursMeet(c1: int, c2: int, unit: nat, a: int, b: int, gap: nat)
    requires unit >= 1
    requires 2 * Abs(a) <= unit && (2 * Abs(a) == unit ==> c1 % 2 == 0)
    requires 2 * Abs(b) <= unit && (2 * Abs(b) == unit ==> c2 % 2 == 0)
    requires Abs(b - a) == gap
    requires Abs(c2 - c1) >= 2 ==> gap >= 2 * unit
    requires Abs(c2 - c1) == 1 ==> gap == unit
    ensures c1 == c2
  {
  }

  /** The offsets of two multiples of unit from x differ by the distance of the multiples. */
  lemma MultiplesApart(c1: int, c2: int, unit: nat, x: int)
    requires unit >= 1
    ensures Abs((c2 * unit - x) - (c1 * unit - x)) == Abs(c2 - c1) * unit
    ensures Abs(c2 - c1) >= 2 ==> Abs(c2 - c1) * unit >= 2 * unit
  {
    assert (c2 * unit - x) - (c1 * unit - x) == (c2 - c1) * unit;
    if Abs(c2 - c1) >= 2 {
      MulAtLeast(2, Abs(c2 - c1), unit);
    }
  }

  /** Two multiples of unit that are both within half a unit of x, and even on a tie, are the same multiple. */
  lemma NearestEvenMultiple(c1: int, c2: int, unit: nat, x: int)
    requires unit >= 1
    requires 2 * Abs(c1 * unit - x) <= unit && (2 * Abs(c1 * unit - x) == unit ==> c1 % 2 == 0)
    requires 2 * Abs(c2 * unit - x) <= unit && (2 * Abs(c2 * unit - x) == unit ==> c2 % 2 == 0)
    ensures c1 == c2
  {
    MultiplesApart(c1, c2, unit, x);
    NeighboursMeet(c1, c2, unit, c1 * unit - x, c2 * unit - x, Abs(c2 - c1) * unit);
  }

  /** Half-even rounding has one result: Quantize is the only value RoundsTo admits. */
  lemma RoundsToUnique(d: Dec, digits: nat, r1: Dec, r2: Dec)
    requires RoundsTo(d, digits, r1) && RoundsTo(d, digits, r2)
    ensures r1 == r2
  {
    var e := Max(d.exp, digits);
    NearestEvenMultiple(r1.coef, r2.coef, Pow10(e - digits), Scaled(d, e));
  }
}

=== FILE: invoices.dfy ===
/** The invoice side of the module (account.invoice and account.invoice.line):
    the two derived amounts subvention_amount and customer_amount, computed
    in batch when saved invoices are read and live while the invoice is
    edited, and the exclusion of subvention products from ordinary invoice
    lines. */
module Invoices {
  import opened Outcomes
  import opened Decimals
  import opened Subventions
  import opened Registration

  const SubventionAmount := "subvention_amount"
  const CustomerAmount := "customer_amount"
  const TotalAmount := "total_amount"

  /** The module's zero, Decimal('0.0'). */
  const Zero := Dec(0, 1)

  /** The integer 0 that Python's sum starts from. */
  const SumStart := Dec(0, 0)

  /** The fields of an invoice the handlers read; totalAmount is the base
      module's total, None while it has not been computed. */
  datatype Invoice = Invoice(subventions: seq<SubventionLine>, totalAmount: Option<Dec>)

  // ---------------------------------------------------------------------------
  // Sums of line amounts
  // ---------------------------------------------------------------------------

  predicate AllAmountsPresent(lines: seq<SubventionLine>)
  {
    forall i :: 0 <= i < |lines| ==> HasAmount(lines[i])
  }

  /** No line of the list has an amount. */
  predicate NoAmounts(lines: seq<SubventionLine>)
  {
    forall i :: 0 <= i < |lines| ==> Amount(lines[i]).None?
  }

  /** `s.amount if s.amount else _ZERO`: a missing or zero amount becomes the module's zero. */
  function Coerced(amount: Option<Dec>): (d: Dec)
    ensures amount.None? ==> d == Zero
    ensures amount.Some? ==> SameValue(d, amount.value)
  {
    if amount.Some? && Truthy(amount.value) then amount.value else Zero
  }

  /** `sum(s.amount if s.amount else _ZERO for s in lines)`, a left fold from 0. */
  function SumCoerced(lines: seq<SubventionLine>): (r: Dec)
    ensures NoAmounts(lines) ==> SameValue(r, SumStart)
  {
    if lines == [] then SumStart
    else
      var init, last := lines[..|lines| - 1], lines[|lines| - 1];
      var s := SumCoerced(init);
      assert NoAmounts(lines) ==> SameValue(Add(s, Coerced(Amount(last))), SumStart) by {
        if NoAmounts(lines) {
          assert NoAmounts(init) by {
            forall i | 0 <= i < |init| ensures Amount(init[i]).None? {
              assert init[i] == lines[i];
            }
          }
          assert Amount(last).None? by {
            assert last == lines[|lines| - 1];
          }
          var e := Max(s.exp, Zero.exp);
          AddValue(s, Zero, e);
          SameValueAt(s, SumStart, e);
          SameValueAt(Add(s, Zero), SumStart, e);
        }
      }
      Add(s, Coerced(Amount(last)))
  }

  /** `sum(s.amount for s in lines)`: raises TypeError as soon as a line has no amount. */
  function SumUnchecked(lines: seq<SubventionLine>): (r: Outcome<Dec>)
    ensures r.Returns? <==> AllAmountsPresent(lines)
    ensures r.Raises? ==> r.error == TypeError
  {
    if lines == [] then Returns(SumStart)
    else
      var last := lines[|lines| - 1];
      match SumUnchecked(lines[..|lines| - 1])
      case Raises(e) => Raises(e)
      case Returns(s) =>
        if Amount(last).None? then Raises(TypeError) else Returns(Add(s, Amount(last).value))
  }

  /** When every line has an amount, the unchecked sum of the batch getter and
      of on_change_lines equals, as a number, the coerced sum of on_change_subventions. */
  lemma {:induction false} SumsAgree(lines: seq<SubventionLine>)
    requires AllAmountsPresent(lines)
    ensures SameValue(SumUnchecked(lines).value, SumCoerced(lines))
  {
    if lines != [] {
      var init, last := lines[..|lines| - 1], lines[|lines| - 1];
      assert AllAmountsPresent(init) by {
        forall i | 0 <= i < |init| ensures HasAmount(init[i]) {
          assert init[i] == lines[i];
        }
      }
      assert Amount(last).Some? by {
        assert last == lines[|lines| - 1];
      }
      SumsAgree(init);
      AddRespectsValue(SumUnchecked(init).value, SumCoerced(init), Amount(last).value, Coerced(Amount(last)));
    }
  }

  /** A line whose amount cannot be computed contributes nothing to the live sum. */
  lemma LineWithoutAmountAddsNothing(lines: seq<SubventionLine>, line: SubventionLine)
    requires Amount(line).None?
    ensures SameValue(SumCoerced(lines + [line]), SumCoerced(lines))
  {
    var s := SumCoerced(lines);
    assert (lines + [line])[..|lines|] == lines;
    var e := Max(s.exp, Zero.exp);
    AddValue(s, Zero, e);
    SameValueAt(Add(s, Zero), s, e);
  }

  // ---------------------------------------------------------------------------
  // get_subventions: the batch getter of both function fields
  // ---------------------------------------------------------------------------

  /** The exception get_subventions raises when it reaches this invoice, once
      total_amount has been computed: a line without an amount breaks the sum,
      and a missing field name or a total missing for the invoice is a KeyError. */
  function InvoiceError(id: int, inv: Invoice, names: seq<string>, totals: map<int, Dec>): (r: Option<PyError>)
    ensures r.Some? ==> inv.subventions != []
    ensures r == Some(TypeError) <==> inv.subventions != [] && SumUnchecked(inv.subventions).Raises?
    ensures r.None? && inv.subventions != [] ==>
      SumUnchecked(inv.subventions).Returns? && SubventionAmount in names && CustomerAmount in names && id in totals
  {
    if inv.subventions == [] then None
    else if !AllAmountsPresent(inv.subventions) then Some(TypeError)
    else if SubventionAmount !in names || id !in totals || CustomerAmount !in names then Some(KeyError)
    else None
  }

  /** The exception get_subventions raises, if any, once it reaches position i
      of the batch: the invoices are visited in order and the first that raises
      decides. */
  function ErrorFrom(invoices: seq<int>, records: map<int, Invoice>, names: seq<string>,
                     totals: map<int, Dec>, i: nat): Option<PyError>
    requires forall k :: 0 <= k < |invoices| ==> invoices[k] in records
    decreases |invoices| - i
  {
    if i >= |invoices| then None
    else if InvoiceError(invoices[i], records[invoices[i]], names, totals).Some? then
      InvoiceError(invoices[i], records[invoices[i]], names, totals)
    else ErrorFrom(invoices, records, names, totals, i + 1)
  }

  /** ErrorFrom is the error of the first invoice from position i on that
      raises, and there is none exactly when no invoice from there raises. */
  lemma {:induction false} ErrorFromIsFirst(invoices: seq<int>, records: map<int, Invoice>, names: seq<string>,
                                            totals: map<int, Dec>, i: nat)
    requires forall k :: 0 <= k < |invoices| ==> invoices[k] in records
    ensures ErrorFrom(invoices, records, names, totals, i).None? <==>
      forall k :: i <= k < |invoices| ==> InvoiceError(invoices[k], records[invoices[k]], names, totals).None?
    ensures ErrorFrom(invoices, records, names, totals, i).Some? ==> exists k :: (i <= k < |invoices|
      && InvoiceError(invoices[k], records[invoices[k]], names, totals) == ErrorFrom(invoices, records, names, totals, i)
      && forall j :: i <= j < k ==> InvoiceError(invoices[j], records[invoices[j]], names, totals).None?)
    decreases |invoices| - i
  {
    if i < |invoices| {
      if InvoiceError(invoices[i], records[invoices[i]], names, totals).None? {
        ErrorFromIsFirst(invoices, records, names, totals, i + 1);
      } else {
        // the invoice at i itself is the first that raises
        assert InvoiceError(invoices[i], records[invoices[i]], names, totals) == ErrorFrom(invoices, records, names, totals, i);
      }
    }
  }

  /** An entry whose final value is the zero it starts with: the invoice has no
      subventions, or the field is neither of the two the getter computes. */
  predicate StaysZero(name: string, inv: Invoice)
  {
    inv.subventions == [] || (name != SubventionAmount && name != CustomerAmount)
  }

  /** The value get_subventions reports for field `name` of the invoice `inv`
      with id `id`, when that invoice does not make it raise. */
  function Entry(name: string, id: int, inv: Invoice, names: seq<string>, totals: Option<map<int, Dec>>): (d: Dec)
    requires totals.Some? ==> InvoiceError(id, inv, names, totals.value).None?
    ensures totals.None? || StaysZero(name, inv) ==> d == Zero
  {
    if totals.None? || inv.subventions == [] then Zero
    else if name == SubventionAmount then SumUnchecked(inv.subventions).value
    else if name == CustomerAmount then
      Sub(totals.value[id], SumUnchecked(inv.subventions).value)
    else Zero
  }

  /** The nested dictionary get_subventions works on, result[name][id], as one
      map keyed by the pair (name, id). */
  type Table = map<(string, int), Dec>

  /** The dictionary get_subventions starts from: a zero per requested field
      and invoice. */
  function Initial(invoices: seq<int>, names: seq<string>): (m: Table)
    ensures forall n, id :: (n, id) in m <==> n in names && id in invoices
    ensures forall n, id :: (n, id) in m ==> m[(n, id)] == Zero
  {
    map n, id | n in names && id in invoices :: (n, id) := Zero
  }

  /** What get_subventions does for one invoice of the batch to the table m
      built so far: nothing for an invoice without subventions; otherwise it
      sets that invoice's subvention_amount and customer_amount to the values
      the getter reports, and no other entry. */
  function Written(m: Table, id: int, inv: Invoice, names: seq<string>, totals: map<int, Dec>): (r: Table)
    requires InvoiceError(id, inv, names, totals).None?
    requires inv.subventions != [] ==> (SubventionAmount, id) in m && (CustomerAmount, id) in m
    ensures forall n, x :: (n, x) in r <==> (n, x) in m
    ensures forall n, x :: (n, x) in r ==>
      r[(n, x)] == if x == id && !StaysZero(n, inv) then Entry(n, id, inv, names, Some(totals)) else m[(n, x)]
  {
    if inv.subventions == [] then m
    else
      var m1 := m[(SubventionAmount, id) := SumUnchecked(inv.subventions).value];
      m1[(CustomerAmount, id) := Sub(totals[id], m1[(SubventionAmount, id)])]
  }

  /** The table get_subventions holds after the first i invoices of the batch,
      none of which raised. */
  ghost function Partial(invoices: seq<int>, records: map<int, Invoice>, names: seq<string>,
                         totals: map<int, Dec>, i: nat): (m: Table)
    requires i <= |invoices| && forall k :: 0 <= k < |invoices| ==> invoices[k] in records
    requires forall j :: 0 <= j < i ==> InvoiceError(invoices[j], records[invoices[j]], names, totals).None?
    ensures forall n, id :: (n, id) in m <==> n in names && id in invoices
  {
    if i == 0 then Initial(invoices, names)
    else
      var id := invoices[i - 1];
      assert id in invoices && InvoiceError(id, records[id], names, totals).None?;
      Written(Partial(invoices, records, names, totals, i - 1), id, records[id], names, totals)
  }

  /** After i invoices, every entry of an invoice met so far, and every entry
      that stays zero, holds the value the getter reports. */
  lemma {:induction false} PartialEntries(invoices: seq<int>, records: map<int, Invoice>, names: seq<string>,
                                          totals: map<int, Dec>, i: nat)
    requires i <= |invoices| && forall k :: 0 <= k < |invoices| ==> invoices[k] in records
    requires forall j :: 0 <= j < |invoices| ==> InvoiceError(invoices[j], records[invoices[j]], names, totals).None?
    ensures forall n, k :: (n in names && 0 <= k < |invoices| && (k < i || StaysZero(n, records[invoices[k]]))) ==>
      (n, invoices[k]) in Partial(invoices, records, names, totals, i)
      && Partial(invoices, records, names, totals, i)[(n, invoices[k])]
        == Entry(n, invoices[k], records[invoices[k]], names, Some(totals))
  {
    var m := Partial(invoices, records, names, totals, i);
    if i > 0 {
      PartialEntries(invoices, records, names, totals, i - 1);
      var prev := Partial(invoices, records, names, totals, i - 1);
      var id := invoices[i - 1];
      forall n, k | n in names && 0 <= k < |invoices| && (k < i || StaysZero(n, records[invoices[k]]))
        ensures m[(n, invoices[k])] == Entry(n, invoices[k], records[invoices[k]], names, Some(totals))
      {
        var x := invoices[k];
        assert x in invoices;
        if x != id || StaysZero(n, records[id]) {
          assert m[(n, x)] == prev[(n, x)];
        }
      }
    } else {
      forall n, k | n in names && 0 <= k < |invoices| && StaysZero(n, records[invoices[k]])
        ensures m[(n, invoices[k])] == Entry(n, invoices[k], records[invoices[k]], names, Some(totals))
      {
        assert invoices[k] in invoices;
      }
    }
  }

  /** One pass of get_subventions' loop, for the invoice `inv` with id `id`:
      raises as the getter does at this invoice, and otherwise writes its two
      entries. A field that was not requested has no row, so writing to it
      raises KeyError. */
  method Visit(result: Table, id: int, inv: Invoice, names: seq<string>, amount: map<int, Dec>)
    returns (r: Outcome<Table>)
    requires (SubventionAmount, id) in result <==> SubventionAmount in names
    requires (CustomerAmount, id) in result <==> CustomerAmount in names
    ensures r.Raises? <==> InvoiceError(id, inv, names, amount).Some?
    ensures r.Raises? ==> InvoiceError(id, inv, names, amount) == Some(r.error)
    ensures r.Returns? ==> r.value == Written(result, id, inv, names, amount)
  {
    r := Returns(result);
    if inv.subventions != [] {
      var sum := SumUnchecked(inv.subventions);
      if sum.Raises? {
        return Raises(sum.error);
      }
      if (SubventionAmount, id) !in result {
        return Raises(KeyError);
      }
      var updated := result[(SubventionAmount, id) := sum.value];
      if id !in amount || (CustomerAmount, id) !in updated {
        return Raises(KeyError);
      }
      updated := updated[(CustomerAmount, id) := Sub(amount[id], updated[(SubventionAmount, id)])];
      r := Returns(updated);
    }
  }

  /** Invoice.get_subventions over the batch `invoices` (ids of the records
      whose fields `records` gives; totals is what get_amount reports for
      total_amount, None when it reports nothing): every requested field of
      every invoice starts at zero, and once the totals are known each invoice
      with subventions gets the sum of their amounts and the total minus that
      sum, unless an invoice raises first. */
  method GetSubventions(invoices: seq<int>, records: map<int, Invoice>, names: seq<string>,
                        totals: Option<map<int, Dec>>)
    returns (r: Outcome<Table>)
    requires forall k :: 0 <= k < |invoices| ==> invoices[k] in records
    ensures r.Raises? <==> totals.Some? && ErrorFrom(invoices, records, names, totals.value, 0).Some?
    ensures r.Raises? ==> ErrorFrom(invoices, records, names, totals.value, 0) == Some(r.error)
    ensures r.Returns? && totals.Some? ==> forall k :: 0 <= k < |invoices| ==>
      InvoiceError(invoices[k], records[invoices[k]], names, totals.value).None?
    ensures r.Returns? ==> forall n, id :: (n, id) in r.value <==> n in names && id in invoices
    ensures r.Returns? ==> forall n, k :: n in names && 0 <= k < |invoices| ==>
      (n, invoices[k]) in r.value
      && r.value[(n, invoices[k])] == Entry(n, invoices[k], records[invoices[k]], names, totals)
  {
    var result := Initial(invoices, names);
    if totals.None? {
      return Returns(result);
    }
    var amount := totals.value;
    var i := 0;
    while i < |invoices|
      invariant i <= |invoices|
      invariant forall j :: 0 <= j < i ==> InvoiceError(invoices[j], records[invoices[j]], names, amount).None?
      invariant ErrorFrom(invoices, records, names, amount, i) == ErrorFrom(invoices, records, names, amount, 0)
      invariant result == Partial(invoices, records, names, amount, i)
    {
      assert invoices[i] in invoices;
      var step := Visit(result, invoices[i], records[invoices[i]], names, amount);
      if step.Raises? {
        return Raises(step.error);
      }
      result := step.value;
      i := i + 1;
    }
    PartialEntries(invoices, records, names, amount, i);
    return Returns(result);
  }

  /** In the batch result, customer_amount + subvention_amount == total_amount
      exactly for every invoice that does not make the getter raise. */
  lemma GetSubventionsConservation(id: int, inv: Invoice, names: seq<string>, totals: map<int, Dec>)
    requires inv.subventions != [] && InvoiceError(id, inv, names, totals).None?
    ensures SameValue(
      Add(Entry(CustomerAmount, id, inv, names, Some(totals)), Entry(SubventionAmount, id, inv, names, Some(totals))),
      totals[id])
  {
    SubThenAdd(totals[id], SumUnchecked(inv.subventions).value);
  }

  /** The stored subvention_amount equals, as a number, what the live handler
      on_change_subventions computes for the same lines. */
  lemma GetSubventionsAgreesWithLive(id: int, inv: Invoice, names: seq<string>, totals: map<int, Dec>)
    requires inv.subventions != [] && InvoiceError(id, inv, names, totals).None?
    ensures SameValue(Entry(SubventionAmount, id, inv, names, Some(totals)), SumCoerced(inv.subventions))
  {
    SumsAgree(inv.subventions);
  }

  // ---------------------------------------------------------------------------
  // Live recomputation while the invoice is edited
  // ---------------------------------------------------------------------------

  /** Invoice.on_change_subventions: zero for both fields when there are no
      subventions; otherwise the coerced sum of the line amounts and the total
      minus it, which raises TypeError if the total is not known. */
  method OnChangeSubventions(inv: Invoice) returns (r: Outcome<map<string, Dec>>)
    ensures inv.subventions == [] ==> r == Returns(map[SubventionAmount := Zero, CustomerAmount := Zero])
    ensures r.Raises? <==> inv.subventions != [] && inv.totalAmount.None?
    ensures r.Raises? ==> r.error == TypeError
    ensures r.Returns? ==> r.value.Keys == {SubventionAmount, CustomerAmount}
    ensures r.Returns? && inv.subventions != [] ==>
      r.value[SubventionAmount] == SumCoerced(inv.subventions)
      && r.value[CustomerAmount] == Sub(inv.totalAmount.value, r.value[SubventionAmount])
      && SameValue(Add(r.value[CustomerAmount], r.value[SubventionAmount]), inv.totalAmount.value)
  {
    var changes := map[SubventionAmount := Zero, CustomerAmount := Zero];
    if inv.subventions != [] {
      changes := changes[SubventionAmount := SumCoerced(inv.subventions)];
      if inv.totalAmount.None? {
        return Raises(TypeError);
      }
      changes := changes[CustomerAmount := Sub(inv.totalAmount.value, changes[SubventionAmount])];
      SubThenAdd(inv.totalAmount.value, changes[SubventionAmount]);
    }
    return Returns(changes);
  }

  /** Invoice.on_change_lines: the base handler's changes (given as `base`),
      untouched when there are no subventions; otherwise with subvention_amount
      and customer_amount added, the latter from the total the base handler has
      just recomputed. Every other key is left as the base handler set it. */
  method OnChangeLines(inv: Invoice, base: map<string, Dec>) returns (r: Outcome<map<string, Dec>>)
    ensures inv.subventions == [] ==> r == Returns(base)
    ensures r.Raises? <==>
      inv.subventions != [] && (!AllAmountsPresent(inv.subventions) || TotalAmount !in base)
    ensures r.Raises? ==> r.error == if AllAmountsPresent(inv.subventions) then KeyError else TypeError
    ensures r.Returns? && inv.subventions != [] ==>
      r.value.Keys == base.Keys + {SubventionAmount, CustomerAmount}
      && r.value[SubventionAmount] == SumUnchecked(inv.subventions).value
      && r.value[CustomerAmount] == Sub(base[TotalAmount], r.value[SubventionAmount])
      && SameValue(Add(r.value[CustomerAmount], r.value[SubventionAmount]), base[TotalAmount])
    ensures r.Returns? ==> forall key :: key in base && key != SubventionAmount && key != CustomerAmount ==>
      r.value[key] == base[key]
  {
    var changes := base;
    if inv.subventions != [] {
      var sum := SumUnchecked(inv.subventions);
      if sum.Raises? {
        return Raises(sum.error);
      }
      changes := changes[SubventionAmount := sum.value];
      if TotalAmount !in changes {
        return Raises(KeyError);
      }
      changes := changes[CustomerAmount := Sub(changes[TotalAmount], changes[SubventionAmount])];
      SubThenAdd(base[TotalAmount], sum.value);
    }
    return Returns(changes);
  }

  // ---------------------------------------------------------------------------
  // account.invoice.line: subvention products are not ordinary line products
  // ---------------------------------------------------------------------------

  /** A domain clause (field, operator, operand). */
  type Clause = (string, string, string)

  const SubventionExclusion: Clause := ("type", "!=", "subvention")

  /** The invoice line model; productDomain is the domain of its product field,
      a list shared by every line. */
  class InvoiceLine {
    var productDomain: seq<Clause>

    /** The model as the base module's setup leaves it. */
    constructor (domain: seq<Clause>)
      ensures productDomain == domain
    {
      productDomain := domain;
    }

    /** InvoiceLine.__setup__: add the exclusion of subvention products unless
        it is already part of the domain. */
    method Setup()
      modifies this
      ensures productDomain == AppendIfAbsent(old(productDomain), SubventionExclusion)
      ensures SubventionExclusion in productDomain
      ensures productDomain[..|old(productDomain)|] == old(productDomain)
      ensures SubventionExclusion in old(productDomain) ==> productDomain == old(productDomain)
      ensures SubventionExclusion !in old(productDomain) ==> multiset(productDomain)[SubventionExclusion] == 1
    {
      if SubventionExclusion !in productDomain {
        productDomain := productDomain + [SubventionExclusion];
      }
    }
  }
}

=== FILE: outcomes.dfy ===
/** Optional values and the outcome of a Python call that may raise. */
module Outcomes {

  /** A field that may hold no value (Python's None). */
  datatype Option<T> = None | Some(value: T)

  /** The exceptions the modelled code can raise: adding None to a decimal,
      or subscripting a dictionary with a key it does not hold. */
  datatype PyError = TypeError | KeyError

  /** A call either returns a value or raises. */
  datatype Outcome<T> = Returns(value: T) | Raises(error: PyError)
}

=== FILE: registration.dfy ===
/** Setup-time registration into a shared list: append an entry unless it is
    already there. Both setup hooks of the module (the product domain of
    invoice lines and the product type selection) use this guarded append. */
module Registration {

  /** The list after `if x not in s: s.append(x)`. */
  function AppendIfAbsent<T(==)>(s: seq<T>, x: T): (r: seq<T>)
    ensures x in r
    ensures |s| <= |r| <= |s| + 1 && r[..|s|] == s
    ensures x in s ==> r == s
    ensures multiset(r) == if x in s then multiset(s) else multiset(s) + multiset{x}
    ensures x !in s ==> multiset(r)[x] == 1
  {
    if x in s then s else s + [x]
  }

  /** Registering twice is the same as registering once. */
  lemma AppendIfAbsentIdempotent<T>(s: seq<T>, x: T)
    ensures AppendIfAbsent(AppendIfAbsent(s, x), x) == AppendIfAbsent(s, x)
  {
  }
}

=== FILE: subventions.dfy ===
/** The subvention line (account.invoice.subvention): its amount, the digit
    lookups that give the precision of its quantity and amounts, its defaults,
    and the changes suggested when a product is chosen. */
module Subventions {
  import opened Outcomes
  import opened Decimals

  /** Digits used when no unit, currency or company is known. */
  const DefaultDigits: nat := 2

  datatype Uom = Uom(id: nat, digits: nat)

  /** A currency; its rounding factor is 10^-digits. */
  datatype Currency = Currency(id: nat, digits: nat)

  /** A product of type subvention; recName is its display name in the party's language. */
  datatype Product = Product(id: nat, recName: string, defaultUom: Uom, listPriceUom: Dec)

  /** The fields of a subvention line the computations read; None is an empty field. */
  datatype SubventionLine = SubventionLine(
    product: Option<Product>,
    description: Option<string>,
    unit: Option<Uom>,
    quantity: Option<Dec>,
    unitPrice: Option<Dec>,
    currency: Option<Currency>)

  /** Python's truth value of an optional decimal field. */
  predicate Present(x: Option<Dec>)
  {
    x.Some? && Truthy(x.value)
  }

  /** Python's truth value of an optional text field. */
  predicate Blank(description: Option<string>)
  {
    description.None? || description.value == ""
  }

  function DefaultUnitDigits(): (d: nat)
    ensures d == DefaultDigits
  {
    DefaultDigits
  }

  /** on_change_with_unit_digits: the unit's digits, or the default a new line starts with. */
  function UnitDigits(unit: Option<Uom>): (d: nat)
    ensures unit.Some? ==> d == unit.value.digits
    ensures unit.None? ==> d == DefaultDigits
  {
    if unit.Some? then unit.value.digits else DefaultDigits
  }

  /** on_change_with_currency_digits: the currency's digits, or two. */
  function CurrencyDigits(currency: Option<Currency>): (d: nat)
    ensures currency.Some? ==> d == currency.value.digits
    ensures currency.None? ==> d == DefaultDigits
  {
    if currency.Some? then currency.value.digits else DefaultDigits
  }

  /** default_currency: the id of the active company's currency, if there is an
      active company (companyCurrency is None when there is none). */
  function DefaultCurrency(companyCurrency: Option<Currency>): (id: Option<nat>)
    ensures id.Some? <==> companyCurrency.Some?
    ensures id.Some? ==> id.value == companyCurrency.value.id
  {
    if companyCurrency.Some? then Some(companyCurrency.value.id) else None
  }

  /** default_currency_digits: agrees with the digit lookup applied to the
      default currency, so a new line's precision matches its currency. */
  function DefaultCurrencyDigits(companyCurrency: Option<Currency>): (d: nat)
    ensures d == CurrencyDigits(companyCurrency)
  {
    if companyCurrency.Some? then companyCurrency.value.digits else DefaultDigits
  }

  /** The condition under which a line has an amount: currency, quantity and
      unit price all set and non-zero. */
  predicate HasAmount(line: SubventionLine)
  {
    line.currency.Some? && Present(line.quantity) && Present(line.unitPrice)
  }

  /** on_change_with_amount: quantity times unit price, rounded by the currency,
      when currency, quantity and unit price are all set and non-zero; no amount
      at all (not a zero amount) otherwise. */
  function Amount(line: SubventionLine): (r: Option<Dec>)
    ensures r.Some? <==> HasAmount(line)
    ensures r.Some? ==> r.value.exp == CurrencyDigits(line.currency)
  {
    if HasAmount(line) then
      Some(Quantize(Mul(line.quantity.value, line.unitPrice.value), line.currency.value.digits))
    else
      None
  }

  /** The amount carries no state of its own: lines that agree on quantity, unit
      price and currency have the same amount, whatever their product, unit or
      description. */
  lemma AmountDependsOnlyOnFactors(a: SubventionLine, b: SubventionLine)
    requires a.quantity == b.quantity && a.unitPrice == b.unitPrice && a.currency == b.currency
    ensures Amount(a) == Amount(b)
  {
  }

  /** The amount is the half-even rounding of the exact product quantity x unit
      price to the currency's digits, and no other value is. */
  lemma AmountIsRoundedProduct(line: SubventionLine, r: Dec)
    requires HasAmount(line)
    ensures RoundsTo(Mul(line.quantity.value, line.unitPrice.value), line.currency.value.digits, Amount(line).value)
    ensures RoundsTo(Mul(line.quantity.value, line.unitPrice.value), line.currency.value.digits, r) ==>
      Amount(line) == Some(r)
  {
    var product := Mul(line.quantity.value, line.unitPrice.value);
    if RoundsTo(product, line.currency.value.digits, r) {
      RoundsToUnique(product, line.currency.value.digits, Amount(line).value, r);
    }
  }

  /** The dictionary on_change_product returns; None is a key it does not set.
      The unit is given as the record its id designates. */
  datatype ProductChanges = ProductChanges(
    description: Option<string>,
    unit: Option<Uom>,
    unitPrice: Option<Dec>)

  const NoChanges := ProductChanges(None, None, None)

  /** The line once the client has applied the suggested changes. */
  function Applied(line: SubventionLine, res: ProductChanges): SubventionLine
  {
    line.(
      description := if res.description.Some? then res.description else line.description,
      unit := if res.unit.Some? then res.unit else line.unit,
      unitPrice := if res.unitPrice.Some? then res.unitPrice else line.unitPrice)
  }

  /** on_change_product: with a product chosen, always suggest its default unit
      and its list price, and its name as description only when the line has no
      description yet; with no product, suggest nothing. */
  method OnChangeProduct(line: SubventionLine) returns (res: ProductChanges)
    ensures line.product.None? ==> res == NoChanges
    ensures line.product.Some? ==>
      res.unit == Some(line.product.value.defaultUom)
      && res.unitPrice == Some(line.product.value.listPriceUom)
    ensures res.description.Some? <==> line.product.Some? && Blank(line.description)
    ensures res.description.Some? ==> res.description.value == line.product.value.recName
    ensures !Blank(line.description) ==> Applied(line, res).description == line.description
    ensures line.product.Some? ==>
      UnitDigits(Applied(line, res).unit) == line.product.value.defaultUom.digits
  {
    res := NoChanges;
    if line.product.Some? {
      var product := line.product.value;
      if Blank(line.description) {
        res := res.(description := Some(product.recName));
      }
      res := res.(unit := Some(product.defaultUom));
      res := res.(unitPrice := Some(product.listPriceUom));
    }
  }
}

=== FILE: templates.dfy ===
/** The product template side of the module (product.template): subvention
    becomes one of the product types a template can have. */
module Templates {
  import opened Registration

  /** A selection option: (stored value, label). */
  type Choice = (string, string)

  const SubventionType: Choice := ("subvention", "Subvention")

  /** The product template model; typeSelection is the list of options of its
      type field, shared by every template. */
  class Template {
    var typeSelection: seq<Choice>

    /** The model as the base module's setup leaves it. */
    constructor (selection: seq<Choice>)
      ensures typeSelection == selection
    {
      typeSelection := selection;
    }

    /** Template.__setup__: offer the subvention type unless the selection
        already holds it, leaving the existing options in place and in order. */
    method Setup()
      modifies this
      ensures typeSelection == AppendIfAbsent(old(typeSelection), SubventionType)
      ensures SubventionType in typeSelection
      ensures typeSelection[..|old(typeSelection)|] == old(typeSelection)
      ensures SubventionType in old(typeSelection) ==> typeSelection == old(typeSelection)
      ensures SubventionType !in old(typeSelection) ==> multiset(typeSelection)[SubventionType] == 1
    {
      if SubventionType !in typeSelection {
        typeSelection := typeSelection + [SubventionType];
      }
    }
  }
}
